=== FILE: README.md ===
# gpt4all-cli, modelled in Dafny

gpt4all-cli is a terminal front-end for a local GPT4All language model. It comes
in two variants that are built the same way:

- `gpt4all-cli.py` loads a model from a path given with `-m`. It takes a token
  budget (`-t`), an optional output file (`-o`) and trailing words.
- `main.py` picks one of two model presets with `--large` and always uses a
  budget of 1024 tokens.

Both variants work the same way. When stdin is piped, they send one prompt to the
model. When stdin is a terminal, they run a chat loop. Either way, the streamed
answer is rendered token by token: after each token the whole text so far is
repainted.

The model describes a run as a trace of events. The events are: model
construction, session open and close, a line read, a generation request, a
repaint, an append to the output file, and a plain print. The model backend is a
parameter. It is any deterministic function from a request to a finite token
stream. A request holds the session's system prompt, the prompts sent earlier in
the session, the new prompt and the token budget.

Modules:

- `Base`: `Option` and `Result`.
- `Text`: `"".join` (`Concat`) and `" ".join` (`JoinSpaced`).
- `Decimal`: integer literals. Only the corrected token check uses it.
- `Render`: `print_stream` as a pure fold.
- `Trace`: the event vocabulary and the projections of a trace (prompts, budgets,
  file appends, lines read). It also holds one generation turn.
- `Cli`: `gpt4all-cli.py`.
- `Shell`: `main.py`.

Facts about the code that the model keeps:

- The quit and help commands exist only in `main.py`. The output file exists
  only in `gpt4all-cli.py`.
- The budget is only checked to be an `int`. Nothing checks that it is
  positive.
- The token check runs before the model path is checked. A missing model path
  raises `FileNotFoundError("Path is invalid")`.
- `-t` has no type conversion, so the token check as written refuses every
  `-t` value (see Findings). `Cli.GetConfig` and `Cli.Main` take the check as
  a parameter: `AsWritten` is the code, `Corrected` is the evident intent. Under
  `Corrected`, a non-integer `-t` value still gives TypeError, standing in for
  the usage error argparse would give (see `Cli.Tokens` under Left out).

## Model

| member | source | states |
|---|---|---|
| Text.ConcatAppend | gpt4all-cli.py:75-76 | Joining the accumulated tokens distributes over concatenation of token lists |
| Text.Concat | gpt4all-cli.py:76 | `"".join` of the tokens is exactly as long as all tokens together: nothing is lost or added |
| Text.ConcatPlaces | gpt4all-cli.py:76 | Token k sits in the joined buffer right after the tokens before it: the buffer is the tokens laid end to end, in order |
| Text.JoinSpaced | gpt4all-cli.py:64 | `" ".join` of the trailing words is as long as the words plus one space per gap: no trimming, no extra separators |
| Text.JoinSpacedSplits | gpt4all-cli.py:64 | When no word holds a space, splitting the prompt on spaces gives back exactly the words: none merged, dropped or reordered |
| Text.JoinSpacedSnoc | gpt4all-cli.py:64 | One more word extends the joined prompt by one space and that word |
| Decimal.Parse | gpt4all-cli.py:55-60 | The corrected check reads a `-t` value as an integer. Every canonical literal (no leading zero, no "-0") is read, and writing the value back gives that same literal; with `ParseShow`, canonical literals and integers correspond one to one. "" is never read, and only a run of ASCII digits, optionally after one '-', is read at all |
| Decimal.Show | gpt4all-cli.py:55-60 | An integer's literal is its digits, after a '-' when it is negative, and is always canonical |
| Decimal.ParseShow | gpt4all-cli.py:55-60 | Every integer written as a literal reads back as itself |
| Render.Repaints | gpt4all-cli.py:73-79 | One repaint per token; repaint k shows the buffer so far followed by the first k+1 tokens joined, in order |
| Render.PrintStream | gpt4all-cli.py:71-83 | Repaint k is the join of tokens 0..k, one per token, none for an empty stream; with an output path exactly one append equal to the whole join (also for an empty stream); without one, no append |
| Render.FramesGrow | gpt4all-cli.py:74-76 | Each repaint is the previous one followed by exactly the next token: no token lost, repeated or reordered |
| Render.AppendIsLastFrame | gpt4all-cli.py:81-83 | The text appended to the file is the last repaint, i.e. the drained buffer, or "" for an empty stream |
| Render.AppendAll | gpt4all-cli.py:81-83 | A series of appends keeps the earlier file content and adds the texts after it, in order |
| Trace.StreamEvents | gpt4all-cli.py:74-83 | One event per token, plus one when there is a path; the file receives exactly what the renderer appends; no generation or input happens |
| Trace.StreamEventsOrder | gpt4all-cli.py:74-83 | All repaints come first, repaint k showing tokens 0..k; the single file write (when there is a path) comes last, after the stream is drained, and holds the whole text |
| Trace.Turn | gpt4all-cli.py:97-102 | A generation is requested with the prompt and budget and its stream rendered; exactly one prompt, one budget |
| Cli.StripSlashes | gpt4all-cli.py:19 | `rstrip("/")`: the longest prefix not ending in '/', with only slashes cut off |
| Cli.Basename | gpt4all-cli.py:20 | The file name is the longest suffix of the path without a '/': it is preceded by a '/' or is the whole path |
| Cli.BasenameUnique | gpt4all-cli.py:20 | Only one string meets the contract of `Basename`, so the contract fixes the file name |
| Cli.Dirname | gpt4all-cli.py:19 | The directory is a prefix of the path up to the last '/', followed only by slashes up to that point. It is non-empty whenever the path has a '/'. It ends in '/' only when it is the whole head and all slashes |
| Cli.DirnameUnique | gpt4all-cli.py:19 | Only one string meets the contract of `Dirname`, so the contract fixes the directory |
| Cli.PathSplits | gpt4all-cli.py:19-20 | The path is exactly directory, then only slashes, then file name |
| Cli.InitModel | gpt4all-cli.py:15-27 | Fails with FileNotFoundError exactly when the path does not exist; otherwise builds the model from the path's directory and file name with downloads off on the GPU |
| Cli.TokensAsWritten | gpt4all-cli.py:58-60 | As written: succeeds only for the default budget 1024; every `-t` value raises TypeError |
| Cli.TokensAsWrittenRejectsEveryFlag | gpt4all-cli.py:55-60 | Every well-formed integer given with `-t` is refused by the `isinstance` test as written |
| Cli.Tokens | gpt4all-cli.py:55-60 | Corrected check: the default is 1024; a failure is always a TypeError and only comes from a `-t` value; a `-t` value is accepted exactly when it reads as an integer, so a non-integer `-t` is refused |
| Cli.TokensAcceptsEveryInteger | gpt4all-cli.py:55-60 | Corrected check: every integer written after `-t` becomes the budget |
| Cli.GetConfig | gpt4all-cli.py:58-68 | Under either token check: a refused token value raises TypeError whatever the path; an accepted one with a missing path raises FileNotFoundError; success exactly when both pass, with the words joined by spaces as prompt |
| Cli.SessionPrompt | gpt4all-cli.py:89-93 | The system prompt always starts with the fixed instruction; without context it is exactly that; with context the heading and the context follow |
| Cli.SessionPromptInjective | gpt4all-cli.py:89-93 | Different contexts give different system prompts; an empty context is not the same as none |
| Cli.ChatLoop | gpt4all-cli.py:95-102 | Every line is read and sent to generation, in order, with no command filtering, each with the configured budget |
| Cli.ChatLoopSinkStep | gpt4all-cli.py:95-102 | The first line's response is appended to the file before anything the later lines append |
| Cli.Responses | gpt4all-cli.py:94-102 | Response i is the backend's answer to line i with all earlier lines as session history |
| Cli.ChatLoopSinkWrites | gpt4all-cli.py:81-83 | Over a chat with an output file, the appends are exactly the responses, one per line, in order |
| Cli.ChatLoopNoSink | gpt4all-cli.py:81 | Without an output file a chat never writes one |
| Cli.Chat | gpt4all-cli.py:86-102 | One session with the context-aware system prompt wraps the loop; every line is a generation with the budget; the run can only end by end-of-input |
| Cli.One | gpt4all-cli.py:105-112 | A session with the bare system prompt, exactly one generation of the given prompt and budget, the stream's file append, a normal end |
| Cli.ChatFile | gpt4all-cli.py:81-83 | Over a chat with an output file, the file keeps what it held and gains each line's whole response, in line order |
| Cli.Main | gpt4all-cli.py:122-129 | Under either token check: a refused token value ends the run with TypeError before any model is built; a missing path ends it with FileNotFoundError before any model is built; otherwise the model is built first |
| Cli.MainOneShot | gpt4all-cli.py:125-127 | Piped stdin: one generation whose prompt is the stdin text followed directly by the joined words, with the bare system prompt; no line read; normal end |
| Cli.MainInteractive | gpt4all-cli.py:128-129 | Terminal: the chat uses the context heading with the joined words (even if empty); the prompts are exactly the typed lines; the run ends with EOFError |
| Cli.ChatFlagIgnored | gpt4all-cli.py:30-37 | Changing the chat flag changes nothing about a run |
| Cli.MainAsWrittenRefusesFlag | gpt4all-cli.py:55-60 | As written, any `-t` ends the program with TypeError and an empty trace, whatever the path and stdin |
| Cli.ChecksAgreeOnDefault | gpt4all-cli.py:55-60 | Without `-t` the as-written and corrected checks give the same run |
| Shell.ParseConfig | main.py:35 | The preset is in the registry and is "large" exactly when `--large` is set |
| Shell.GetModel | main.py:39-46 | A registered preset gives its registry file under ./models, downloads off, on the GPU; any other name is a KeyError |
| Shell.PresetSelection | main.py:11-14 | The configured preset always loads, and its file is phi-4-fp16.gguf exactly when `--large` is set |
| Shell.PrintStream | main.py:49-57 | Repaint k is the join of tokens 0..k, one per token, and nothing is ever appended to a file |
| Shell.UntilQuit | main.py:63-66 | The lines the loop acts on are no more than the input and contain no "q" |
| Shell.UntilQuitPrefix | main.py:63-66 | Those lines are a prefix of the input, and the line that follows them, if any, is "q" |
| Shell.WithoutHelp | main.py:68-70 | No "h" remains, and a line remains exactly when it occurs in the input and is not "h" |
| Shell.WithoutHelpCounts | main.py:68-70 | Each line other than "h" is kept as many times as it occurs; every "h" is dropped |
| Shell.WithoutHelpAppend | main.py:68-70 | Dropping "h" commutes with concatenation, so the kept lines stay in input order |
| Shell.RememberedPrompts | main.py:61-77 | The history the session carries after a run of lines is exactly the prompts sent, in order: every line but "h" |
| Shell.Step | main.py:68-77 | "h" gives only the usage print with no generation and no repaint; any other line gives exactly one generation of that line with budget 1024 |
| Shell.StepRenders | main.py:72-77 | A line other than "h" is announced as a generation of that line with budget 1024, and the rest of its events are the backend's reply to the session's history and the line, rendered by `print_stream` with repaints and no file |
| Shell.ChatLoop | main.py:62-77 | The loop reads no more lines than there are, and reads at least one whenever there is one |
| Shell.ChatLoopInputs | main.py:63-64 | The lines read are exactly the first `consumed` lines of the input, in order |
| Shell.ChatLoopPrompts | main.py:62-77 | The prompts generated are exactly the lines before the first "q" that are not "h", in order; matching is exact |
| Shell.ChatLoopBudgets | main.py:72-76 | There is one generation per prompted line, and every one uses 1024 tokens |
| Shell.ChatLoopReads | main.py:63-66 | Lines are read up to and including the first "q", and none after it; the loop ends by quitting exactly when a "q" occurs, otherwise by running out of input |
| Shell.ChatLoopNoSink | main.py:49-57 | The chat never writes an output file |
| Shell.Chat | main.py:60-78 | One session with the fixed system prompt wraps the loop; the run ends normally exactly when a "q" was typed, otherwise with EOFError |
| Shell.QuitEnds | main.py:63-66 | A line "q" reads that line, prints "Goodbye" and stops: the loop's events are exactly those two |
| Shell.QuitFarewell | main.py:61-66 | Whenever a "q" occurs, the loop's last two events are reading it and printing "Goodbye" |
| Shell.ChatLoopResumes | main.py:61-77 | After any run of lines without "q", the loop goes on as a fresh loop over the rest whose history is the prompts of that run: the same ending, that many more lines read, and the fresh loop's events last |
| Shell.ChatPrompts | main.py:60-77 | The prompts of the whole chat, session open and close included, are exactly the lines before the first "q" that are not "h", in order |
| Shell.QuitFirst | main.py:63-66 | A first "q" gives only the farewell: no generation happens and nothing else is read |
| Shell.One | main.py:81-88 | A session with the fixed system prompt, exactly one generation of the prompt with budget 1024, no file write, a normal end |
| Shell.Main | main.py:103-111 | The preset model is built first, then a session with the fixed system prompt opens; piped stdin becomes exactly one prompt, unchanged |
| Shell.MainInteractive | main.py:107-111 | Terminal: the generations are exactly the non-"h" lines before the first "q", and the run ends normally exactly when a "q" came |

## Left out

- The interrupt handler (`set_signal_handler`, `sys.exit(0)` on SIGINT) is not modelled. It fires asynchronously, so every trace here is a run that was not interrupted.
- `time.sleep(delay)`, `console.clear()`, `console.print` and Markdown parsing are not modelled. They have no effect on the trace; a repaint is recorded as the string given to the renderer.
- GPT4All model loading and inference are a parameter. Model construction always succeeds: a load failure (a preset file missing under ./models in main.py, an incompatible file in either variant) is not modelled. The session history is the list of earlier prompts. This assumes the backend is deterministic, so that its earlier replies follow from the earlier prompts. GPT4All's `generate` samples by default, so this is a modelling assumption, not a property of the library.
- Whether the library's `chat_session` really releases the session when EOFError escapes is library behaviour. The trace records leaving the `with` block as `CloseSession` on both exit paths.
- Argument parsing is taken as already done, and the parsed values are inputs. Parser exits (a missing `-m`, a malformed option) are left out.
- A generation that fails mid-stream is not modelled: the backend always returns a finite stream.
- The `models` subcommand of `main.py` is parsed but `main` never acts on it. So it is absent from `Shell.Main`. `list_models` just prints the registry, and it is left out.
- `sys.stdin.isatty()`, `sys.stdin.read()` and `input()` are inputs: a boolean, a string and a list of lines. The `">> "` prompt text that `input` writes is not in the trace; an `Input` event is one successful call.
- Real file I/O is not modelled. The output file is the sequence of appended texts, and I/O errors on opening it are left out.
- Cli.Tokens: accepts an optional '-' followed by ASCII digits. Python's `int` also accepts surrounding whitespace, a '+' sign, underscores and non-ASCII decimal digits such as Arabic-Indic ones. Neither the source nor the model requires the budget to be positive. For a `-t` value that is not an integer, such as `-t abc`, the corrected check gives TypeError. Adding `type=int` to the `-t` option would instead make argparse stop with a usage error (exit status 2) before the check runs, so here the TypeError stands in for that parser exit.

## Findings

| source | as written | input that shows it | evidently intended | confidence | as-written member | corrected member |
|---|---|---|---|---|---|---|
| gpt4all-cli.py:55-60 | `-t` has an int default but no `type=int`, so a value given on the command line stays a string and the `isinstance(tokens, int)` check raises TypeError | `-m model.gguf -t 512` | `-t 512` sets a 512-token budget | high, not executed | Cli.TokensAsWritten, shown by Cli.TokensAsWrittenRejectsEveryFlag and Cli.MainAsWrittenRefusesFlag | Cli.Tokens, proved by Cli.TokensAcceptsEveryInteger |

=== FILE: base.dfy ===
/** Failure-compatible wrappers shared by the model: an optional value (Python's
    `str | None`) and a value-or-error result (a return or a raised exception). */
module Base {

  datatype Option<+T> = None | Some(value: T)

  datatype Result<+T, +E> = Success(value: T) | Failure(error: E)
}

=== FILE: cli.dfy ===
/** `gpt4all-cli.py`: a model loaded from a path, a token budget, an optional
    output file and trailing words; a one-shot run when stdin is piped and a
    sentinel-free chat loop when it is a terminal. */
module Cli {
  import opened Base
  import opened Text
  import Decimal
  import opened Render
  import opened Trace

  const DefaultTokens: int := 1024
  const ContextHeading: string := "\nContext:\n"
  const InvalidPath: string := "Path is invalid"

  /** The value of `args.tokens` after parsing: the int default, or the text
      given after `-t`, which the parser leaves as a string. */
  datatype TokensArg = DefaultBudget | TokensFlag(text: string)

  /** The parsed command line. `chat` is parsed but never used afterwards. */
  datatype Args = Args(model: string, chat: bool, out: Option<string>, words: seq<string>, tokens: TokensArg)

  /** The resolved configuration; it has no field for the chat flag. */
  datatype Config = Config(tokens: int, model: ModelSpec, prompt: string, out: Option<string>)

  /** The environment: which paths exist, whether stdin is a terminal, what a
      piped stdin holds, and the lines an interactive user types. */
  datatype Env = Env(existing: set<string>, isTty: bool, stdin: string, lines: seq<string>)

  // ---------------------------------------------------------------------------
  // Paths (`os.path.dirname` / `os.path.basename` on POSIX)

  predicate AllSlashes(s: string)
  {
    forall i :: 0 <= i < |s| ==> s[i] == '/'
  }

  /** The index just past the last '/', or 0 when there is none. */
  function SepEnd(p: string): (i: nat)
    ensures i <= |p|
    ensures i == 0 || p[i - 1] == '/'
    ensures forall j :: i <= j < |p| ==> p[j] != '/'
  {
    if p == [] then 0
    else if p[|p| - 1] == '/' then |p|
    else SepEnd(p[..|p| - 1])
  }

  /** `s.rstrip("/")`. */
  function StripSlashes(s: string): (r: string)
    ensures |r| <= |s| && r == s[..|r|]
    ensures r == [] || r[|r| - 1] != '/'
    ensures AllSlashes(s[|r|..])
  {
    if s != [] && s[|s| - 1] == '/' then
      var r := StripSlashes(s[..|s| - 1]);
      assert s[|r|..] == s[..|s| - 1][|r|..] + ['/'];
      r
    else s
  }

  /** `os.path.basename(p)`: the part after the last '/'. */
  function Basename(p: string): (b: string)
    ensures '/' !in b
    ensures |b| <= |p| && p[|p| - |b|..] == b
    ensures |b| == |p| || p[|p| - |b| - 1] == '/'
    ensures '/' !in p ==> b == p
  {
    p[SepEnd(p)..]
  }

  /** `os.path.dirname(p)`: the part up to the last '/', with trailing slashes
      removed unless it consists of slashes only. */
  function Dirname(p: string): (d: string)
    ensures |d| <= SepEnd(p) && p[..|d|] == d
    ensures AllSlashes(p[|d|..SepEnd(p)])
    ensures SepEnd(p) > 0 ==> d != []
    ensures d != [] && d[|d| - 1] == '/' ==> AllSlashes(d) && |d| == SepEnd(p)
    ensures '/' !in p ==> d == []
  {
    var head := p[..SepEnd(p)];
    if head != [] && AllSlashes(head) then head else StripSlashes(head)
  }

  /** The contract of `Basename` leaves no choice: the longest suffix without a
      '/' is the only string meeting it. */
  lemma BasenameUnique(p: string, b: string)
    requires '/' !in b && |b| <= |p| && p[|p| - |b|..] == b
    requires |b| == |p| || p[|p| - |b| - 1] == '/'
    ensures b == Basename(p)
  {
  }

  /** The contract of `Dirname` leaves no choice either: the head up to the
      last '/' with its trailing slashes stripped, unless it is all slashes. */
  lemma DirnameUnique(p: string, d: string)
    requires |d| <= SepEnd(p) && p[..|d|] == d
    requires AllSlashes(p[|d|..SepEnd(p)])
    requires SepEnd(p) > 0 ==> d != []
    requires d != [] && d[|d| - 1] == '/' ==> AllSlashes(d) && |d| == SepEnd(p)
    ensures d == Dirname(p)
  {
  }

  /** Directory and file name split the path exactly, with only slashes in
      between. */
  lemma PathSplits(p: string)
    ensures |Dirname(p)| + |Basename(p)| <= |p|
    ensures AllSlashes(p[|Dirname(p)|..|p| - |Basename(p)|])
    ensures p == Dirname(p) + p[|Dirname(p)|..|p| - |Basename(p)|] + Basename(p)
  {
    var i := SepEnd(p);
    var head := p[..i];
    assert p[i..] == Basename(p);
    if !(head != [] && AllSlashes(head)) {
      var d := StripSlashes(head);
      assert p[|d|..i] == head[|d|..];
    }
  }

  // ---------------------------------------------------------------------------
  // Configuration (`init_model`, `get_config`)

  /** `init_model(path)`: the path must exist before the model is built from its
      directory and file name, with downloading off and the GPU as device. */
  function InitModel(path: string, existing: set<string>): (r: Result<ModelSpec, Fault>)
    ensures r.Failure? <==> path !in existing
    ensures r.Failure? ==> r.error == FileNotFoundError(InvalidPath)
    ensures r.Success? ==> r.value.file == Basename(path) && r.value.dir == Dirname(path)
    ensures r.Success? ==> !r.value.allowDownload && r.value.device == "gpu"
  {
    if path !in existing then Failure(FileNotFoundError(InvalidPath))
    else Success(ModelSpec(Basename(path), Dirname(path), false, "gpu"))
  }

  /** The token check as written: only an `int` passes, and since `-t` carries no
      type conversion, only the default is one. */
  function TokensAsWritten(arg: TokensArg): (r: Result<int, Fault>)
    ensures r.Success? <==> arg.DefaultBudget?
    ensures r.Success? ==> r.value == DefaultTokens
    ensures r.Failure? ==> r.error == TypeError
  {
    match arg
    case DefaultBudget => Success(DefaultTokens)
    case TokensFlag(_) => Failure(TypeError)
  }

  /** Every budget given on the command line is refused by the type test as written,
      although it is a well-formed integer. */
  lemma TokensAsWrittenRejectsEveryFlag(n: int)
    ensures Decimal.Parse(Decimal.Show(n)) == Some(n)
    ensures TokensAsWritten(TokensFlag(Decimal.Show(n))) == Failure(TypeError)
  {
    Decimal.ParseShow(n);
  }

  /** The token check as intended: the default, or the integer that the `-t`
      text spells; anything else is a TypeError. */
  function Tokens(arg: TokensArg): (r: Result<int, Fault>)
    ensures arg.DefaultBudget? ==> r == Success(DefaultTokens)
    ensures r.Failure? ==> r.error == TypeError && arg.TokensFlag?
    ensures arg.TokensFlag? ==> (r.Success? <==> Decimal.Parse(arg.text).Some?)
  {
    match arg
    case DefaultBudget => Success(DefaultTokens)
    case TokensFlag(text) =>
      match Decimal.Parse(text)
      case Some(n) => Success(n)
      case None => Failure(TypeError)
  }

  /** Every integer written after `-t` becomes the budget. */
  lemma TokensAcceptsEveryInteger(n: int)
    ensures Tokens(TokensFlag(Decimal.Show(n))) == Success(n)
  {
    Decimal.ParseShow(n);
  }

  /** Which token check a run uses: the one in the code, or the one it evidently
      intends. */
  datatype TokenCheck = AsWritten | Corrected

  function CheckTokens(check: TokenCheck, arg: TokensArg): Result<int, Fault>
  {
    match check
    case AsWritten => TokensAsWritten(arg)
    case Corrected => Tokens(arg)
  }

  /** `get_config()` after argument parsing: the token check runs first, then the
      path check inside `init_model`; trailing words are joined by spaces. */
  function GetConfig(check: TokenCheck, args: Args, existing: set<string>): (r: Result<Config, Fault>)
    ensures CheckTokens(check, args.tokens).Failure? ==> r == Failure(TypeError)
    ensures CheckTokens(check, args.tokens).Success? && args.model !in existing ==> r == Failure(FileNotFoundError(InvalidPath))
    ensures r.Success? <==> CheckTokens(check, args.tokens).Success? && args.model in existing
    ensures r.Success? ==> r.value.tokens == CheckTokens(check, args.tokens).value
                           && r.value.prompt == JoinSpaced(args.words)
                           && r.value.out == args.out
                           && r.value.model.file == Basename(args.model)
                           && r.value.model.dir == Dirname(args.model)
  {
    match CheckTokens(check, args.tokens)
    case Failure(e) => Failure(e)
    case Success(tokens) =>
      match InitModel(args.model, existing)
      case Failure(e) => Failure(e)
      case Success(model) => Success(Config(tokens, model, JoinSpaced(args.words), args.out))
  }

  // ---------------------------------------------------------------------------
  // Sessions (`chat`, `one`)

  /** The chat session's system prompt: the fixed instruction, with the context
      appended under a heading when one is supplied. */
  function SessionPrompt(context: Option<string>): (s: string)
    ensures |s| >= |SystemPrompt| && s[..|SystemPrompt|] == SystemPrompt
    ensures context.None? ==> s == SystemPrompt
    ensures context.Some? ==> s[|SystemPrompt|..] == ContextHeading + context.value
  {
    match context
    case None => SystemPrompt
    case Some(c) => SystemPrompt + ContextHeading + c
  }

  /** Distinct contexts give distinct system prompts, and a supplied context,
      even an empty one, is never confused with none. */
  lemma SessionPromptInjective(a: Option<string>, b: Option<string>)
    requires SessionPrompt(a) == SessionPrompt(b)
    ensures a == b
  {
    var sa := SessionPrompt(a);
    if a.Some? && b.Some? {
      assert a.value == sa[|SystemPrompt| + |ContextHeading|..];
    }
  }

  /** One pass of the loop body: the line read is the prompt, sent with the
      configured budget. */
  lemma LineRound(backend: Backend, session: string, history: seq<string>, line: string,
                  maxTokens: int, out: Option<string>)
    ensures var t := [Input(line)] + Turn(backend, session, history, line, maxTokens, out);
            Inputs(t) == [line] && Prompts(t) == [line] && Budgets(t) == [maxTokens]
  {
    var turn := Turn(backend, session, history, line, maxTokens, out);
    KeepAppend([Input(line)], turn, InputOf);
    KeepAppend([Input(line)], turn, PromptOf);
    KeepAppend([Input(line)], turn, BudgetOf);
  }

  /** The body of the `while True` loop: every line read is sent to generation
      with the configured budget and the stream rendered, with no command
      filtering. The session remembers the prompts sent so far. */
  function ChatLoop(backend: Backend, session: string, maxTokens: int, out: Option<string>,
                    history: seq<string>, lines: seq<string>): (t: seq<Event>)
    ensures Inputs(t) == lines
    ensures Prompts(t) == lines
    ensures |Budgets(t)| == |lines|
    ensures forall i :: 0 <= i < |Budgets(t)| ==> Budgets(t)[i] == maxTokens
    decreases |lines|
  {
    if lines == [] then []
    else
      var first := [Input(lines[0])] + Turn(backend, session, history, lines[0], maxTokens, out);
      var rest := ChatLoop(backend, session, maxTokens, out, history + [lines[0]], lines[1..]);
      LineRound(backend, session, history, lines[0], maxTokens, out);
      KeepAppend(first, rest, InputOf);
      KeepAppend(first, rest, PromptOf);
      KeepAppend(first, rest, BudgetOf);
      first + rest
  }

  /** One unrolling of the loop, seen from the output file: the first line's
      response is appended before everything the remaining lines append. */
  lemma ChatLoopSinkStep(backend: Backend, session: string, maxTokens: int, out: Option<string>,
                         history: seq<string>, lines: seq<string>)
    requires lines != []
    ensures SinkTexts(ChatLoop(backend, session, maxTokens, out, history, lines))
            == (if out.Some? then [Concat(backend(Request(session, history, lines[0], maxTokens)))] else [])
               + SinkTexts(ChatLoop(backend, session, maxTokens, out, history + [lines[0]], lines[1..]))
  {
    var turn := Turn(backend, session, history, lines[0], maxTokens, out);
    var first := [Input(lines[0])] + turn;
    var rest := ChatLoop(backend, session, maxTokens, out, history + [lines[0]], lines[1..]);
    KeepAppend([Input(lines[0])], turn, SinkTextOf);
    KeepAppend(first, rest, SinkTextOf);
  }

  /** What an output file receives over a chat: for each line, the whole
      response to it, requested with every earlier line as history. */
  function Responses(backend: Backend, session: string, maxTokens: int,
                     history: seq<string>, lines: seq<string>): (w: seq<string>)
    ensures |w| == |lines|
    ensures forall i :: 0 <= i < |lines| ==>
              w[i] == Concat(backend(Request(session, history + lines[..i], lines[i], maxTokens)))
    decreases |lines|
  {
    if lines == [] then []
    else
      var rest := Responses(backend, session, maxTokens, history + [lines[0]], lines[1..]);
      ResponsesShift(history, lines);
      [Concat(backend(Request(session, history, lines[0], maxTokens)))] + rest
  }

  /** The history a later line sees, counted from the second line on. */
  lemma ResponsesShift(history: seq<string>, lines: seq<string>)
    requires lines != []
    ensures history + lines[..0] == history
    ensures forall i :: 1 <= i < |lines| ==>
              (history + [lines[0]]) + lines[1..][..i - 1] == history + lines[..i]
  {
    assert history + lines[..0] == history;
    forall i | 1 <= i < |lines|
      ensures (history + [lines[0]]) + lines[1..][..i - 1] == history + lines[..i]
    {
      assert lines[..i] == [lines[0]] + lines[1..][..i - 1];
    }
  }

  /** With an output file, the appends over a chat are exactly the responses,
      one per line and in the order of the lines. */
  lemma {:induction false} ChatLoopSinkWrites(backend: Backend, session: string, maxTokens: int,
                                              path: string, history: seq<string>, lines: seq<string>)
    ensures SinkTexts(ChatLoop(backend, session, maxTokens, Some(path), history, lines))
            == Responses(backend, session, maxTokens, history, lines)
    decreases |lines|
  {
    if lines != [] {
      ChatLoopSinkStep(backend, session, maxTokens, Some(path), history, lines);
      ChatLoopSinkWrites(backend, session, maxTokens, path, history + [lines[0]], lines[1..]);
    }
  }

  /** Without an output file nothing is ever appended. */
  lemma {:induction false} ChatLoopNoSink(backend: Backend, session: string, maxTokens: int,
                                          history: seq<string>, lines: seq<string>)
    ensures SinkTexts(ChatLoop(backend, session, maxTokens, None, history, lines)) == []
    decreases |lines|
  {
    if lines != [] {
      ChatLoopSinkStep(backend, session, maxTokens, None, history, lines);
      ChatLoopNoSink(backend, session, maxTokens, history + [lines[0]], lines[1..]);
    }
  }

  /** `chat(model, max_tokens, context, out)`: one session for the whole loop.
      The loop has no exit of its own; it ends when `input` meets the end of
      input, and the EOFError leaves the session and escapes. */
  function Chat(backend: Backend, maxTokens: int, context: Option<string>, out: Option<string>,
                lines: seq<string>): (run: Run)
    ensures |run.trace| >= 2
    ensures run.trace[0] == OpenSession(SessionPrompt(context))
    ensures run.trace[|run.trace| - 1] == CloseSession
    ensures Inputs(run.trace) == lines && Prompts(run.trace) == lines
    ensures |Budgets(run.trace)| == |lines|
    ensures forall i :: 0 <= i < |Budgets(run.trace)| ==> Budgets(run.trace)[i] == maxTokens
    ensures run.exit == Raised(EOFError)
  {
    var loop := ChatLoop(backend, SessionPrompt(context), maxTokens, out, [], lines);
    var start := OpenSession(SessionPrompt(context));
    KeepFramed(start, loop, CloseSession, InputOf);
    KeepFramed(start, loop, CloseSession, PromptOf);
    KeepFramed(start, loop, CloseSession, BudgetOf);
    Run([start] + loop + [CloseSession], Raised(EOFError))
  }

  /** `one(model, prompt, max_tokens, out)`: a fresh session with the fixed
      system prompt and exactly one generation. */
  function One(backend: Backend, prompt: string, maxTokens: int, out: Option<string>): (run: Run)
    ensures |run.trace| >= 3
    ensures run.trace[0] == OpenSession(SystemPrompt)
    ensures run.trace[1] == Generate(prompt, maxTokens)
    ensures run.trace[|run.trace| - 1] == CloseSession
    ensures Prompts(run.trace) == [prompt] && Budgets(run.trace) == [maxTokens]
    ensures Inputs(run.trace) == []
    ensures SinkTexts(run.trace) == PrintStream(backend(Request(SystemPrompt, [], prompt, maxTokens)), out).appends
    ensures run.exit == Completed
  {
    var start := [OpenSession(SystemPrompt)];
    var turn := Turn(backend, SystemPrompt, [], prompt, maxTokens, out);
    KeepAppend(start, turn, InputOf);
    KeepAppend(start, turn, PromptOf);
    KeepAppend(start, turn, BudgetOf);
    KeepAppend(start, turn, SinkTextOf);
    KeepAppend(start + turn, [CloseSession], InputOf);
    KeepAppend(start + turn, [CloseSession], PromptOf);
    KeepAppend(start + turn, [CloseSession], BudgetOf);
    KeepAppend(start + turn, [CloseSession], SinkTextOf);
    Run(start + turn + [CloseSession], Completed)
  }

  // ---------------------------------------------------------------------------
  // Entry point (`main`)

  /** The output file over a chat: what was there before stays, and each line's
      whole response follows, in the order of the lines. */
  lemma ChatFile(backend: Backend, maxTokens: int, context: Option<string>, path: string,
                 lines: seq<string>, file: string)
    ensures AppendAll(file, SinkTexts(Chat(backend, maxTokens, context, Some(path), lines).trace))
            == file + Concat(Responses(backend, SessionPrompt(context), maxTokens, [], lines))
  {
    var loop := ChatLoop(backend, SessionPrompt(context), maxTokens, Some(path), [], lines);
    KeepFramed(OpenSession(SessionPrompt(context)), loop, CloseSession, SinkTextOf);
    ChatLoopSinkWrites(backend, SessionPrompt(context), maxTokens, path, [], lines);
  }

  /** `main()` after the interrupt handler is installed: configuration first, and
      on success a one-shot run for piped stdin (its text followed directly by
      the joined words) or the chat loop with the joined words as context. */
  function Main(check: TokenCheck, args: Args, env: Env, backend: Backend): (run: Run)
    ensures CheckTokens(check, args.tokens).Failure? ==> run == Run([], Raised(TypeError))
    ensures CheckTokens(check, args.tokens).Success? && args.model !in env.existing ==> run == Run([], Raised(FileNotFoundError(InvalidPath)))
    ensures GetConfig(check, args, env.existing).Success? ==>
              |run.trace| > 1 && run.trace[0] == LoadModel(GetConfig(check, args, env.existing).value.model)
  {
    match GetConfig(check, args, env.existing)
    case Failure(e) => Run([], Raised(e))
    case Success(c) =>
      var session := if !env.isTty then One(backend, env.stdin + c.prompt, c.tokens, c.out)
                     else Chat(backend, c.tokens, Some(c.prompt), c.out, env.lines);
      Run([LoadModel(c.model)] + session.trace, session.exit)
  }

  /** Piped stdin: exactly one generation, whose prompt is the stdin text followed
      by the space-joined words with nothing trimmed or inserted, in a session
      with the bare system prompt; the run then completes. */
  lemma MainOneShot(check: TokenCheck, args: Args, env: Env, backend: Backend)
    requires GetConfig(check, args, env.existing).Success? && !env.isTty
    ensures var run := Main(check, args, env, backend);
            && run.trace[1] == OpenSession(SystemPrompt)
            && Prompts(run.trace) == [env.stdin + JoinSpaced(args.words)]
            && Budgets(run.trace) == [CheckTokens(check, args.tokens).value]
            && Inputs(run.trace) == []
            && run.exit == Completed
  {
    var c := GetConfig(check, args, env.existing).value;
    var session := One(backend, env.stdin + c.prompt, c.tokens, c.out);
    KeepAppend([LoadModel(c.model)], session.trace, PromptOf);
    KeepAppend([LoadModel(c.model)], session.trace, BudgetOf);
    KeepAppend([LoadModel(c.model)], session.trace, InputOf);
  }

  /** Terminal stdin: the chat loop runs with the joined words as context (so the
      context heading is present even when there are no words), every typed
      line is one generation with the configured budget, and the run ends with
      EOFError. */
  lemma MainInteractive(check: TokenCheck, args: Args, env: Env, backend: Backend)
    requires GetConfig(check, args, env.existing).Success? && env.isTty
    ensures var run := Main(check, args, env, backend);
            && run.trace[1] == OpenSession(SystemPrompt + ContextHeading + JoinSpaced(args.words))
            && Prompts(run.trace) == env.lines
            && Inputs(run.trace) == env.lines
            && run.exit == Raised(EOFError)
  {
    var c := GetConfig(check, args, env.existing).value;
    var session := Chat(backend, c.tokens, Some(c.prompt), c.out, env.lines);
    KeepAppend([LoadModel(c.model)], session.trace, PromptOf);
    KeepAppend([LoadModel(c.model)], session.trace, InputOf);
  }

  /** The `--chat` flag changes nothing about a run. */
  lemma ChatFlagIgnored(check: TokenCheck, args: Args, env: Env, backend: Backend)
    ensures Main(check, args.(chat := true), env, backend) == Main(check, args.(chat := false), env, backend)
  {
  }

  /** As written, any `-t` on the command line ends the program with TypeError
      before the model path is even looked at, whatever the environment. */
  lemma MainAsWrittenRefusesFlag(args: Args, env: Env, backend: Backend)
    requires args.tokens.TokensFlag?
    ensures Main(AsWritten, args, env, backend) == Run([], Raised(TypeError))
  {
  }

  /** Without `-t` the two checks agree, so the correction changes no run the
      code as written completes. */
  lemma ChecksAgreeOnDefault(args: Args, env: Env, backend: Backend)
    requires args.tokens == DefaultBudget
    ensures Main(AsWritten, args, env, backend) == Main(Corrected, args, env, backend)
  {
  }
}

=== FILE: decimal.dfy ===
/** Decimal integer literals: reading an optionally negative run of ASCII digits
    into an integer, and writing an integer back out. */
module Decimal {
  import opened Base

  predicate IsDigit(c: char)
  {
    '0' <= c <= '9'
  }

  predicate AllDigits(s: string)
  {
    forall i :: 0 <= i < |s| ==> IsDigit(s[i])
  }

  function DigitChar(d: nat): (c: char)
    requires d < 10
    ensures IsDigit(c)
    ensures c as int - '0' as int == d
  {
    ('0' as int + d) as char
  }

  /** The value of a run of digits, most significant first. */
  function ValueOf(s: string): nat
    requires AllDigits(s)
  {
    if s == [] then 0 else 10 * ValueOf(s[..|s| - 1]) + (s[|s| - 1] as int - '0' as int)
  }

  /** A digit run as `ShowNat` writes it: no leading zero unless it is "0". */
  predicate NoLeadingZero(s: string)
  {
    s != [] && AllDigits(s) && (s[0] != '0' || |s| == 1)
  }

  /** A literal as `Show` writes it: a canonical digit run, or '-' before one
      that is not "0". */
  predicate Canonical(s: string)
  {
    NoLeadingZero(s) || (|s| > 1 && s[0] == '-' && s[1..] != "0" && NoLeadingZero(s[1..]))
  }

  /** The shortest digit run for a natural number. */
  function ShowNat(n: nat): (s: string)
    ensures NoLeadingZero(s)
    ensures s == "0" <==> n == 0
  {
    if n < 10 then [DigitChar(n)] else ShowNat(n / 10) + [DigitChar(n % 10)]
  }

  /** Reading back what `ShowNat` wrote yields the same number. */
  lemma {:induction false} ValueOfShowNat(n: nat)
    ensures ValueOf(ShowNat(n)) == n
  {
    var s := ShowNat(n);
    if n >= 10 {
      assert s[..|s| - 1] == ShowNat(n / 10);
      ValueOfShowNat(n / 10);
    }
  }

  /** A digit run with no leading zero has a positive value unless it is "0". */
  lemma {:induction false} ValueOfPositive(s: string)
    requires NoLeadingZero(s) && s != "0"
    ensures ValueOf(s) > 0
    decreases |s|
  {
    if |s| > 1 {
      ValueOfPositive(s[..|s| - 1]);
    }
  }

  /** Writing back what was read from a digit run with no leading zero gives
      the same run. */
  lemma {:induction false} ShowNatValueOf(s: string)
    requires NoLeadingZero(s)
    ensures ShowNat(ValueOf(s)) == s
    decreases |s|
  {
    var last := s[|s| - 1] as int - '0' as int;
    if |s| == 1 {
      assert s == [DigitChar(last)];
    } else {
      var init := s[..|s| - 1];
      ValueOfPositive(init);
      ShowNatValueOf(init);
      var n := ValueOf(s);
      assert n / 10 == ValueOf(init) && n % 10 == last;
      assert s == init + [DigitChar(last)];
    }
  }

  /** What a canonical literal reads as, written back. */
  lemma ReadBack(s: string)
    ensures NoLeadingZero(s) ==> ShowNat(ValueOf(s)) == s
    ensures |s| > 1 && s[0] == '-' && s[1..] != "0" && NoLeadingZero(s[1..]) ==>
              ValueOf(s[1..]) > 0 && "-" + ShowNat(ValueOf(s[1..])) == s
  {
    if NoLeadingZero(s) {
      ShowNatValueOf(s);
    }
    if |s| > 1 && s[0] == '-' && s[1..] != "0" && NoLeadingZero(s[1..]) {
      ShowNatValueOf(s[1..]);
      ValueOfPositive(s[1..]);
      assert s == "-" + s[1..];
    }
  }

  /** An integer literal: digits, optionally preceded by one '-'. Every
      canonical literal is read, and it is the literal `Show` writes for the
      value read, so literals and integers correspond one to one. */
  function Parse(s: string): (r: Option<int>)
    ensures r.Some? ==> s != []
    ensures r.Some? ==> (s != [] && AllDigits(s)) || (|s| > 1 && s[0] == '-' && AllDigits(s[1..]))
    ensures Canonical(s) ==> r.Some? && Show(r.value) == s
  {
    ReadBack(s);
    if s != [] && AllDigits(s) then Some(ValueOf(s))
    else if |s| > 1 && s[0] == '-' && AllDigits(s[1..]) then Some(-(ValueOf(s[1..]) as int))
    else None
  }

  /** The literal for an integer: its digits, after a '-' when it is negative. */
  function Show(n: int): (s: string)
    ensures n >= 0 ==> s != [] && AllDigits(s)
    ensures n < 0 ==> |s| > 1 && s[0] == '-' && AllDigits(s[1..])
    ensures Canonical(s)
  {
    if n >= 0 then ShowNat(n) else "-" + ShowNat(-n)
  }

  /** Every integer survives a write followed by a read. */
  lemma ParseShow(n: int)
    ensures Parse(Show(n)) == Some(n)
  {
    if n >= 0 {
      ValueOfShowNat(n);
    } else {
      var s := Show(n);
      assert !IsDigit(s[0]);
      assert s[1..] == ShowNat(-n);
      ValueOfShowNat(-n);
    }
  }
}

=== FILE: render.dfy ===
/** The stream renderer (`print_stream`): tokens are pulled in order into a
    growing buffer, and after every token the whole buffer is handed to the
    Markdown renderer again. When an output path is given, the drained buffer is
    appended to that file once. Screen clearing, Markdown parsing and the
    throttling sleep are outside the model; a repaint is the string rendered. */
module Render {
  import opened Base
  import opened Text

  /** What one call produces: the repainted strings, in order, and the texts
      appended to the output file, in order. */
  datatype Rendered = Rendered(frames: seq<string>, appends: seq<string>)

  /** The loop of `print_stream` resumed with `buffer` already accumulated: each
      token is appended to the buffer and the buffer is repainted. */
  function Repaints(buffer: string, stream: seq<string>): (frames: seq<string>)
    ensures |frames| == |stream|
    ensures forall k :: 0 <= k < |stream| ==> frames[k] == buffer + Concat(stream[..k + 1])
    decreases |stream|
  {
    if stream == [] then []
    else
      var grown := buffer + stream[0];
      ConcatTake(stream);
      [grown] + Repaints(grown, stream[1..])
  }

  /** `print_stream(stream, out=out)`. */
  function PrintStream(stream: seq<string>, out: Option<string>): (r: Rendered)
    ensures |r.frames| == |stream|
    ensures forall k :: 0 <= k < |stream| ==> r.frames[k] == Concat(stream[..k + 1])
    ensures out.None? ==> r.appends == []
    ensures out.Some? ==> r.appends == [Concat(stream)]
  {
    Rendered(Repaints("", stream), if out.Some? then [Concat(stream)] else [])
  }

  /** The buffer only grows: each repaint is the previous one followed by
      exactly the next token, so no token is lost, repeated or reordered. */
  lemma FramesGrow(stream: seq<string>, out: Option<string>, k: nat)
    requires 0 < k < |stream|
    ensures PrintStream(stream, out).frames[k] == PrintStream(stream, out).frames[k - 1] + stream[k]
  {
    assert stream[..k + 1] == stream[..k] + [stream[k]];
    ConcatSnoc(stream[..k], stream[k]);
  }

  /** The file receives what the last repaint showed: the drained buffer, or ""
      when the stream was empty and nothing was repainted. */
  lemma AppendIsLastFrame(stream: seq<string>, path: string)
    ensures var r := PrintStream(stream, Some(path));
            r.appends == [if stream == [] then "" else r.frames[|stream| - 1]]
  {
    assert stream[..|stream|] == stream;
  }

  /** The output file after a series of `print_stream` calls: each one opens it
      in append mode and writes its text at the end. */
  function AppendAll(file: string, texts: seq<string>): (after: string)
    ensures after == file + Concat(texts)
    decreases |texts|
  {
    if texts == [] then file else AppendAll(file + texts[0], texts[1..])
  }
}

=== FILE: shell.dfy ===
/** `main.py`: a model chosen from two presets by `--large`; a one-shot run when
    stdin is piped and a chat loop with the `q` and `h` commands when it is a
    terminal. The budget is fixed and no output file exists. */
module Shell {
  import opened Base
  import opened Text
  import opened Render
  import opened Trace

  /** The preset registry. */
  const Models: map<string, string> :=
    map["small" := "Nous-Hermes-2-Mistral-7B-DPO.Q4_0.gguf", "large" := "phi-4-fp16.gguf"]

  const ModelDir: string := "./models"
  const Budget: int := 1024
  const Quit: string := "q"
  const Help: string := "h"
  const Farewell: string := "Goodbye"
  const Usage: string := "Help..."

  datatype Config = Config(model: string)

  /** The environment: whether stdin is a terminal, what a piped stdin holds,
      and the lines an interactive user types. */
  datatype Env = Env(isTty: bool, stdin: string, lines: seq<string>)

  /** `parse_config()` after argument parsing: `--large` picks the large preset,
      its absence the small one. */
  function ParseConfig(large: bool): (c: Config)
    ensures c.model in Models
    ensures c.model == "large" <==> large
  {
    Config(if large then "large" else "small")
  }

  /** `get_model(typ)`: the preset's file under ./models, downloading off, on the
      GPU; a name outside the registry is a KeyError. */
  function GetModel(preset: string): (r: Result<ModelSpec, Fault>)
    ensures r.Success? <==> preset in Models
    ensures r.Success? ==> r.value.file == Models[preset] && r.value.dir == ModelDir
                           && !r.value.allowDownload && r.value.device == "gpu"
    ensures r.Failure? ==> r.error == KeyError(preset)
  {
    if preset in Models then Success(ModelSpec(Models[preset], ModelDir, false, "gpu"))
    else Failure(KeyError(preset))
  }

  /** The configured model always loads, and it is the large file exactly when
      `--large` was given. */
  lemma PresetSelection(large: bool)
    ensures GetModel(ParseConfig(large).model).Success?
    ensures GetModel(ParseConfig(large).model).value.file == "phi-4-fp16.gguf" <==> large
  {
  }

  /** `print_stream(stream)`: this variant has no output file. It is the render
      `Step` and `One` perform through `Trace.Turn` with no path. */
  function PrintStream(stream: seq<string>): (r: Rendered)
    ensures |r.frames| == |stream|
    ensures forall k :: 0 <= k < |stream| ==> r.frames[k] == Concat(stream[..k + 1])
    ensures r.appends == []
  {
    Render.PrintStream(stream, None)
  }

  // ---------------------------------------------------------------------------
  // The chat loop

  datatype LoopEnd = Quitted | EndOfInput

  /** The loop's events, how it ended, and how many lines it read. */
  datatype Loop = Loop(trace: seq<Event>, end: LoopEnd, consumed: nat)

  /** The lines before the first quit command (all of them when there is none). */
  function UntilQuit(lines: seq<string>): (r: seq<string>)
    ensures |r| <= |lines|
    ensures Quit !in r
  {
    if lines == [] || lines[0] == Quit then [] else [lines[0]] + UntilQuit(lines[1..])
  }

  /** The lines before the first "q" are a prefix of the input, followed either
      by the end of the input or by a "q". */
  lemma {:induction false} UntilQuitPrefix(lines: seq<string>)
    ensures UntilQuit(lines) == lines[..|UntilQuit(lines)|]
    ensures |UntilQuit(lines)| < |lines| ==> lines[|UntilQuit(lines)|] == Quit
  {
    if lines != [] && lines[0] != Quit {
      UntilQuitPrefix(lines[1..]);
      assert lines[..|UntilQuit(lines)|] == [lines[0]] + lines[1..][..|UntilQuit(lines[1..])|];
    }
  }

  /** The lines that are not the help command, in order. */
  function WithoutHelp(lines: seq<string>): (r: seq<string>)
    ensures Help !in r
    ensures forall x :: x in r <==> x in lines && x != Help
  {
    if lines == [] then []
    else (if lines[0] == Help then [] else [lines[0]]) + WithoutHelp(lines[1..])
  }

  /** Every line other than "h" is kept as often as it occurs, and every "h" is
      dropped. */
  lemma {:induction false} WithoutHelpCounts(lines: seq<string>)
    ensures multiset(WithoutHelp(lines)) == multiset(lines)[Help := 0]
    decreases |lines|
  {
    if lines != [] {
      WithoutHelpCounts(lines[1..]);
      assert lines == [lines[0]] + lines[1..];
    }
  }

  /** Dropping "h" commutes with concatenation, so the kept lines stay in their
      input order. */
  lemma {:induction false} WithoutHelpAppend(a: seq<string>, b: seq<string>)
    ensures WithoutHelp(a + b) == WithoutHelp(a) + WithoutHelp(b)
  {
    if a == [] {
      assert a + b == b;
    } else {
      assert (a + b)[1..] == a[1..] + b;
      WithoutHelpAppend(a[1..], b);
    }
  }

  /** What one line other than "q" does inside the loop: "h" prints the usage
      line; anything else is one generation with the fixed budget, rendered. */
  function Step(backend: Backend, history: seq<string>, line: string): (t: seq<Event>)
    ensures Inputs(t) == [] && SinkTexts(t) == []
    ensures Prompts(t) == (if line == Help then [] else [line])
    ensures Budgets(t) == (if line == Help then [] else [Budget])
    ensures line == Help ==> t == [Print(Usage)]
  {
    if line == Help then
      KeepNone([Print(Usage)], InputOf);
      KeepNone([Print(Usage)], SinkTextOf);
      KeepNone([Print(Usage)], PromptOf);
      KeepNone([Print(Usage)], BudgetOf);
      [Print(Usage)]
    else
      Turn(backend, SystemPrompt, history, line, Budget, None)
  }

  /** A line other than "h" is announced as one generation from that line with
      the fixed budget, followed by the backend's reply to the session's history
      and the line, streamed to the console (the `print_stream` render) and to
      no file. */
  lemma StepRenders(backend: Backend, history: seq<string>, line: string)
    requires line != Help
    ensures var t := Step(backend, history, line);
            && |t| > 0 && t[0] == Generate(line, Budget)
            && t[1..] == StreamEvents(backend(Request(SystemPrompt, history, line, Budget)), None)
  {
  }

  /** The session remembers a prompt once it is generated from; "h" is never
      sent to the model. */
  function After(history: seq<string>, line: string): seq<string>
  {
    if line == Help then history else history + [line]
  }

  /** The history the loop carries after acting on `lines` (none of them "q"). */
  function Remembered(history: seq<string>, lines: seq<string>): seq<string>
    decreases |lines|
  {
    if lines == [] then history else Remembered(After(history, lines[0]), lines[1..])
  }

  /** What the session remembers is exactly the prompts sent so far, in order:
      every line except the "h" commands. */
  lemma {:induction false} RememberedPrompts(history: seq<string>, lines: seq<string>)
    ensures Remembered(history, lines) == history + WithoutHelp(lines)
    decreases |lines|
  {
    if lines != [] {
      RememberedPrompts(After(history, lines[0]), lines[1..]);
      var kept := if lines[0] == Help then [] else [lines[0]];
      assert WithoutHelp(lines) == kept + WithoutHelp(lines[1..]);
      assert After(history, lines[0]) == history + kept;
      assert (history + kept) + WithoutHelp(lines[1..]) == history + (kept + WithoutHelp(lines[1..]));
    }
  }

  /** The `while True` loop: a line equal to "q" prints the farewell and stops
      reading; one equal to "h" prints the usage line and reads on; any other
      line is generated from with the fixed budget and rendered. Running out of
      lines makes `input` raise. The history passed down after the first `k`
      lines (none "q") is `Remembered(history, lines[..k])`; `ChatLoopResumes`
      proves the loop then goes on as a fresh loop with that history. */
  function ChatLoop(backend: Backend, history: seq<string>, lines: seq<string>): (r: Loop)
    ensures r.consumed <= |lines|
    ensures r.consumed == 0 <==> lines == []
    decreases |lines|
  {
    if lines == [] then Loop([], EndOfInput, 0)
    else if lines[0] == Quit then Loop([Input(Quit), Print(Farewell)], Quitted, 1)
    else
      var rest := ChatLoop(backend, After(history, lines[0]), lines[1..]);
      Loop([Input(lines[0])] + Step(backend, history, lines[0]) + rest.trace, rest.end, rest.consumed + 1)
  }

  /** One round of the loop generates from its line unless the line is "h",
      always with the fixed budget, and writes nothing to a file. */
  lemma GenerateStep(backend: Backend, history: seq<string>, lines: seq<string>)
    requires lines != [] && lines[0] != Quit
    ensures var r := ChatLoop(backend, history, lines);
            var rest := ChatLoop(backend, After(history, lines[0]), lines[1..]);
            && Prompts(r.trace) == (if lines[0] == Help then [] else [lines[0]]) + Prompts(rest.trace)
            && Budgets(r.trace) == (if lines[0] == Help then [] else [Budget]) + Budgets(rest.trace)
            && SinkTexts(r.trace) == SinkTexts(rest.trace)
  {
    var step := Step(backend, history, lines[0]);
    var rest := ChatLoop(backend, After(history, lines[0]), lines[1..]);
    assert ChatLoop(backend, history, lines).trace == [Input(lines[0])] + step + rest.trace;
    KeepRoundSkipped(lines[0], step, rest.trace, PromptOf);
    KeepRoundSkipped(lines[0], step, rest.trace, BudgetOf);
    KeepRoundSkipped(lines[0], step, rest.trace, SinkTextOf);
  }

  /** A projection of a round sees the line read, then its step, then the rest. */
  lemma KeepRound<T>(line: string, step: seq<Event>, rest: seq<Event>, pick: Event -> Option<T>)
    ensures Keep([Input(line)] + step + rest, pick)
            == Keep([Input(line)], pick) + Keep(step, pick) + Keep(rest, pick)
  {
    KeepAppend([Input(line)], step, pick);
    KeepAppend([Input(line)] + step, rest, pick);
  }

  /** A projection that skips inputs sees a round as its step followed by the
      rest. */
  lemma KeepRoundSkipped<T>(line: string, step: seq<Event>, rest: seq<Event>, pick: Event -> Option<T>)
    requires pick(Input(line)).None?
    ensures Keep([Input(line)] + step + rest, pick) == Keep(step, pick) + Keep(rest, pick)
  {
    KeepRound(line, step, rest, pick);
    KeepNone([Input(line)], pick);
  }

  /** The loop reads every line up to and including the first "q", and no line
      after it; it stops by quitting exactly when a "q" occurs. */
  lemma {:induction false} ChatLoopReads(backend: Backend, history: seq<string>, lines: seq<string>)
    ensures ChatLoop(backend, history, lines).consumed
            == |UntilQuit(lines)| + (if Quit in lines then 1 else 0)
    ensures ChatLoop(backend, history, lines).end == Quitted <==> Quit in lines
    decreases |lines|
  {
    if lines != [] && lines[0] != Quit {
      ChatLoopReads(backend, After(history, lines[0]), lines[1..]);
      UntilQuitStep(lines);
    }
  }

  /** The lines read are exactly the first `consumed` lines, in order. */
  lemma {:induction false} ChatLoopInputs(backend: Backend, history: seq<string>, lines: seq<string>)
    ensures var r := ChatLoop(backend, history, lines);
            Inputs(r.trace) == lines[..r.consumed]
    decreases |lines|
  {
    if lines == [] {
    } else if lines[0] == Quit {
      QuitEnds(backend, history, lines);
    } else {
      var r := ChatLoop(backend, history, lines);
      var rest := ChatLoop(backend, After(history, lines[0]), lines[1..]);
      InputsStep(backend, history, lines);
      ChatLoopInputs(backend, After(history, lines[0]), lines[1..]);
      ReadsPrefix(lines, Inputs(r.trace), Inputs(rest.trace), rest.consumed);
    }
  }

  /** Reading one line and then a prefix of the rest reads a prefix. */
  lemma ReadsPrefix(lines: seq<string>, got: seq<string>, rest: seq<string>, n: nat)
    requires n < |lines| && rest == lines[1..][..n] && got == [lines[0]] + rest
    ensures got == lines[..n + 1]
  {
    assert lines[..n + 1] == [lines[0]] + lines[1..][..n];
  }

  /** A "q" ends the loop with the farewell: it is read, and nothing is
      generated or written. */
  lemma QuitEnds(backend: Backend, history: seq<string>, lines: seq<string>)
    requires lines != [] && lines[0] == Quit
    ensures var r := ChatLoop(backend, history, lines);
            && r.trace == [Input(Quit), Print(Farewell)]
            && r.consumed == 1 && Inputs(r.trace) == [Quit]
            && Prompts(r.trace) == [] && Budgets(r.trace) == [] && SinkTexts(r.trace) == []
  {
    var t := [Input(Quit), Print(Farewell)];
    assert ChatLoop(backend, history, lines).trace == t;
    KeepAppend([Input(Quit)], [Print(Farewell)], InputOf);
    KeepNone(t, PromptOf);
    KeepNone(t, BudgetOf);
    KeepNone(t, SinkTextOf);
  }

  /** One round of the loop reads exactly its own line. */
  lemma InputsStep(backend: Backend, history: seq<string>, lines: seq<string>)
    requires lines != [] && lines[0] != Quit
    ensures var r := ChatLoop(backend, history, lines);
            var rest := ChatLoop(backend, After(history, lines[0]), lines[1..]);
            Inputs(r.trace) == [lines[0]] + Inputs(rest.trace) && r.consumed == rest.consumed + 1
  {
    Round(backend, history, lines);
    KeepRound(lines[0], Step(backend, history, lines[0]),
              ChatLoop(backend, After(history, lines[0]), lines[1..]).trace, InputOf);
    assert Keep([Input(lines[0])], InputOf) == [lines[0]];
  }


  /** Which lines get generated from: every line before the first "q" except the
      "h" lines, in order. Commands match only exactly, so "Q", " q" or "" are
      prompts like any other. */
  lemma {:induction false} ChatLoopPrompts(backend: Backend, history: seq<string>, lines: seq<string>)
    ensures Prompts(ChatLoop(backend, history, lines).trace) == WithoutHelp(UntilQuit(lines))
    decreases |lines|
  {
    if lines == [] {
    } else if lines[0] == Quit {
      QuitEnds(backend, history, lines);
    } else {
      GenerateStep(backend, history, lines);
      ChatLoopPrompts(backend, After(history, lines[0]), lines[1..]);
      PromptedStep(lines);
    }
  }

  /** Every generation of the loop uses the fixed budget of 1024 tokens. */
  lemma {:induction false} ChatLoopBudgets(backend: Backend, history: seq<string>, lines: seq<string>)
    ensures |Budgets(ChatLoop(backend, history, lines).trace)| == |WithoutHelp(UntilQuit(lines))|
    ensures AllFixed(Budgets(ChatLoop(backend, history, lines).trace))
    decreases |lines|
  {
    if lines == [] {
    } else if lines[0] == Quit {
      QuitEnds(backend, history, lines);
    } else {
      var rest := ChatLoop(backend, After(history, lines[0]), lines[1..]);
      GenerateStep(backend, history, lines);
      ChatLoopBudgets(backend, After(history, lines[0]), lines[1..]);
      PromptedStep(lines);
      var head := if lines[0] == Help then [] else [Budget];
      var prompted := if lines[0] == Help then [] else [lines[0]];
      BudgetsCombine(Budgets(ChatLoop(backend, history, lines).trace), head, Budgets(rest.trace),
                     WithoutHelp(UntilQuit(lines)), prompted, WithoutHelp(UntilQuit(lines[1..])));
    }
  }

  /** Every budget in `budgets` is the fixed one. */
  predicate AllFixed(budgets: seq<int>)
  {
    forall b :: b in budgets ==> b == Budget
  }

  /** A budget list built from pieces that only hold the fixed budget, one per
      prompt, holds only the fixed budget, one per prompt. */
  lemma BudgetsCombine(all: seq<int>, head: seq<int>, rest: seq<int>,
                       prompts: seq<string>, headPrompts: seq<string>, restPrompts: seq<string>)
    requires all == head + rest && prompts == headPrompts + restPrompts
    requires |head| == |headPrompts| && |rest| == |restPrompts|
    requires AllFixed(head) && AllFixed(rest)
    ensures |all| == |prompts| && AllFixed(all)
  {
  }

  /** Past a first line that is not "q", that line is prompted unless it is "h",
      ahead of whatever the remaining lines prompt. */
  lemma PromptedStep(lines: seq<string>)
    requires lines != [] && lines[0] != Quit
    ensures WithoutHelp(UntilQuit(lines))
            == (if lines[0] == Help then [] else [lines[0]]) + WithoutHelp(UntilQuit(lines[1..]))
  {
    var u := UntilQuit(lines[1..]);
    assert UntilQuit(lines) == [lines[0]] + u;
    assert ([lines[0]] + u)[1..] == u;
  }

  /** Past a first line that is not "q", the lines before the first "q" and the
      presence of a "q" are decided by the remaining lines. */
  lemma UntilQuitStep(lines: seq<string>)
    requires lines != [] && lines[0] != Quit
    ensures |UntilQuit(lines)| == |UntilQuit(lines[1..])| + 1
    ensures Quit in lines <==> Quit in lines[1..]
  {
    assert lines == [lines[0]] + lines[1..];
  }

  /** This variant never writes an output file. */
  lemma {:induction false} ChatLoopNoSink(backend: Backend, history: seq<string>, lines: seq<string>)
    ensures SinkTexts(ChatLoop(backend, history, lines).trace) == []
    decreases |lines|
  {
    if lines == [] {
    } else if lines[0] == Quit {
      QuitEnds(backend, history, lines);
    } else {
      GenerateStep(backend, history, lines);
      ChatLoopNoSink(backend, After(history, lines[0]), lines[1..]);
    }
  }

  /** `chat(model)`: one session with the fixed system prompt around the loop.
      A "q" ends the run normally; running out of lines raises EOFError. */
  function Chat(backend: Backend, lines: seq<string>): (run: Run)
    ensures |run.trace| >= 2
    ensures run.trace[0] == OpenSession(SystemPrompt)
    ensures run.trace[|run.trace| - 1] == CloseSession
    ensures run.exit == Completed <==> Quit in lines
    ensures run.exit != Completed ==> run.exit == Raised(EOFError)
  {
    var loop := ChatLoop(backend, [], lines);
    ChatLoopReads(backend, [], lines);
    Run([OpenSession(SystemPrompt)] + loop.trace + [CloseSession],
        if loop.end == Quitted then Completed else Raised(EOFError))
  }

  /** Whenever a "q" comes, the loop's last events are reading it and printing
      the farewell. */
  lemma QuitFarewell(backend: Backend, history: seq<string>, lines: seq<string>)
    requires Quit in lines
    ensures var t := ChatLoop(backend, history, lines).trace;
            |t| >= 2 && t[|t| - 2..] == [Input(Quit), Print(Farewell)]
  {
    var k := |UntilQuit(lines)|;
    FirstQuit(lines);
    ChatLoopResumes(backend, history, lines, k);
    var later := ChatLoop(backend, Remembered(history, lines[..k]), lines[k..]);
    QuitEnds(backend, Remembered(history, lines[..k]), lines[k..]);
    EndsAs(ChatLoop(backend, history, lines), later, k, [Input(Quit), Print(Farewell)]);
  }

  /** A "q" among the lines sits right after the lines before the first "q". */
  lemma FirstQuit(lines: seq<string>)
    requires Quit in lines
    ensures var k := |UntilQuit(lines)|;
            k < |lines| && lines[k..] != [] && lines[k..][0] == Quit && Quit !in lines[..k]
  {
    UntilQuitPrefix(lines);
  }

  /** A loop that goes on as `later` ends with `later`'s events. */
  lemma EndsAs(whole: Loop, later: Loop, k: nat, tail: seq<Event>)
    requires ResumesAs(whole, later, k) && later.trace == tail
    ensures |tail| <= |whole.trace| && whole.trace[|whole.trace| - |tail|..] == tail
  {
  }

  /** One unrolling of the loop on a line other than "q". */
  lemma Round(backend: Backend, history: seq<string>, lines: seq<string>)
    requires lines != [] && lines[0] != Quit
    ensures var whole := ChatLoop(backend, history, lines);
            var rest := ChatLoop(backend, After(history, lines[0]), lines[1..]);
            && whole.trace == [Input(lines[0])] + Step(backend, history, lines[0]) + rest.trace
            && whole.end == rest.end && whole.consumed == rest.consumed + 1
  {
  }

  /** `whole` goes on as `later` once `k` lines are read: the same ending,
      `k` more lines read, and `later`'s events are its last ones. */
  predicate ResumesAs(whole: Loop, later: Loop, k: nat)
  {
    && whole.end == later.end && whole.consumed == k + later.consumed
    && |later.trace| <= |whole.trace| && whole.trace[|whole.trace| - |later.trace|..] == later.trace
  }

  /** A round put in front of a loop that resumes as `later` after `k - 1`
      lines gives a loop that resumes as `later` after `k` lines. */
  lemma ResumeStep(whole: Loop, head: seq<Event>, rest: Loop, later: Loop, k: nat)
    requires k > 0
    requires whole.trace == head + rest.trace && whole.end == rest.end && whole.consumed == rest.consumed + 1
    requires ResumesAs(rest, later, k - 1)
    ensures ResumesAs(whole, later, k)
  {
    assert whole.trace[|whole.trace| - |later.trace|..] == rest.trace[|rest.trace| - |later.trace|..];
  }

  /** Taking `k` lines is taking the first and then `k - 1` of the rest. */
  lemma TakeFirst(history: seq<string>, lines: seq<string>, k: nat)
    requires 0 < k <= |lines| && Quit !in lines[..k]
    ensures lines[0] != Quit && Quit !in lines[1..][..k - 1]
    ensures lines[1..][k - 1..] == lines[k..]
    ensures Remembered(history, lines[..k]) == Remembered(After(history, lines[0]), lines[1..][..k - 1])
  {
    assert lines[..k][0] == lines[0];
    assert lines[..k][1..] == lines[1..][..k - 1];
  }

  /** After `k` lines none of which is "q", the loop goes on exactly as a fresh
      loop over the remaining lines whose history is what those `k` lines left
      remembered: same ending, `k` more lines read, and the fresh loop's events
      are the last ones. */
  lemma {:induction false} ChatLoopResumes(backend: Backend, history: seq<string>, lines: seq<string>, k: nat)
    requires k <= |lines| && Quit !in lines[..k]
    ensures ResumesAs(ChatLoop(backend, history, lines), ChatLoop(backend, Remembered(history, lines[..k]), lines[k..]), k)
    decreases k
  {
    if k == 0 {
      assert lines[..0] == [] && lines[0..] == lines;
    } else {
      TakeFirst(history, lines, k);
      var next := After(history, lines[0]);
      ChatLoopResumes(backend, next, lines[1..], k - 1);
      Round(backend, history, lines);
      ResumeStep(ChatLoop(backend, history, lines), [Input(lines[0])] + Step(backend, history, lines[0]),
                 ChatLoop(backend, next, lines[1..]),
                 ChatLoop(backend, Remembered(next, lines[1..][..k - 1]), lines[1..][k - 1..]), k);
    }
  }

  /** A "q" as the first line: the farewell is the only output, and nothing is
      generated. */
  lemma QuitFirst(backend: Backend, lines: seq<string>)
    requires lines != [] && lines[0] == Quit
    ensures Chat(backend, lines).trace
            == [OpenSession(SystemPrompt), Input(Quit), Print(Farewell), CloseSession]
    ensures Chat(backend, lines).exit == Completed
  {
  }

  /** The generations of a whole chat are those of its loop. */
  lemma ChatPrompts(backend: Backend, lines: seq<string>)
    ensures Prompts(Chat(backend, lines).trace) == WithoutHelp(UntilQuit(lines))
  {
    var loop := ChatLoop(backend, [], lines);
    assert Chat(backend, lines).trace == [OpenSession(SystemPrompt)] + loop.trace + [CloseSession];
    KeepFramed(OpenSession(SystemPrompt), loop.trace, CloseSession, PromptOf);
    ChatLoopPrompts(backend, [], lines);
  }

  /** `one(model, prompt)`: a fresh session with the fixed system prompt and one
      generation with the fixed budget. */
  function One(backend: Backend, prompt: string): (run: Run)
    ensures |run.trace| >= 3
    ensures run.trace[0] == OpenSession(SystemPrompt)
    ensures run.trace[1] == Generate(prompt, Budget)
    ensures run.trace[|run.trace| - 1] == CloseSession
    ensures Prompts(run.trace) == [prompt] && Budgets(run.trace) == [Budget]
    ensures SinkTexts(run.trace) == []
    ensures run.exit == Completed
  {
    var start := [OpenSession(SystemPrompt)];
    var turn := Turn(backend, SystemPrompt, [], prompt, Budget, None);
    KeepAppend(start, turn, PromptOf);
    KeepAppend(start, turn, BudgetOf);
    KeepAppend(start, turn, SinkTextOf);
    KeepAppend(start + turn, [CloseSession], PromptOf);
    KeepAppend(start + turn, [CloseSession], BudgetOf);
    KeepAppend(start + turn, [CloseSession], SinkTextOf);
    Run(start + turn + [CloseSession], Completed)
  }

  /** `main()` after the interrupt handler is installed: the preset's model is
      built, then piped stdin becomes exactly one prompt, unchanged, and a
      terminal starts the chat loop. */
  function Main(large: bool, env: Env, backend: Backend): (run: Run)
    ensures |run.trace| > 1
    ensures run.trace[0] == LoadModel(ModelSpec(if large then "phi-4-fp16.gguf" else Models["small"], ModelDir, false, "gpu"))
    ensures run.trace[1] == OpenSession(SystemPrompt)
    ensures !env.isTty ==> Prompts(run.trace) == [env.stdin] && run.exit == Completed
  {
    match GetModel(ParseConfig(large).model)
    case Failure(e) => Run([], Raised(e))
    case Success(model) =>
      var session := if !env.isTty then One(backend, env.stdin) else Chat(backend, env.lines);
      KeepAppend([LoadModel(model)], session.trace, PromptOf);
      Run([LoadModel(model)] + session.trace, session.exit)
  }

  /** Terminal stdin: the generations are exactly the non-command lines before
      the first "q", in order, and the run completes exactly when a "q" came. */
  lemma MainInteractive(large: bool, env: Env, backend: Backend)
    requires env.isTty
    ensures var run := Main(large, env, backend);
            && Prompts(run.trace) == WithoutHelp(UntilQuit(env.lines))
            && (run.exit == Completed <==> Quit in env.lines)
  {
    var model := GetModel(ParseConfig(large).model).value;
    var session := Chat(backend, env.lines);
    ChatPrompts(backend, env.lines);
    KeepAppend([LoadModel(model)], session.trace, PromptOf);
  }
}

=== FILE: text.dfy ===
/** The two string joins the program uses: `"".join(parts)`, which lays the parts
    end to end, and `" ".join(parts)`, which puts one space between neighbours. */
module Text {

  /** `"".join(parts)`: nothing is lost or added, so the join is exactly as
      long as its parts. */
  function Concat(parts: seq<string>): (r: string)
    ensures |r| == TotalLength(parts)
  {
    if parts == [] then "" else parts[0] + Concat(parts[1..])
  }

  /** The summed length of all parts. */
  function TotalLength(parts: seq<string>): nat
  {
    if parts == [] then 0 else |parts[0]| + TotalLength(parts[1..])
  }

  /** Joining distributes over sequence concatenation. */
  lemma {:induction false} ConcatAppend(a: seq<string>, b: seq<string>)
    ensures Concat(a + b) == Concat(a) + Concat(b)
  {
    if a == [] {
      assert a + b == b;
    } else {
      assert (a + b)[1..] == a[1..] + b;
      ConcatAppend(a[1..], b);
    }
  }

  /** Appending one more part appends exactly its text to the join. */
  lemma ConcatSnoc(a: seq<string>, t: string)
    ensures Concat(a + [t]) == Concat(a) + t
  {
    ConcatAppend(a, [t]);
    assert Concat([t]) == t + Concat([]);
  }

  /** The length of the first part and the rest. */
  lemma TotalLengthCons(x: string, rest: seq<string>)
    ensures TotalLength([x] + rest) == |x| + TotalLength(rest)
  {
    assert ([x] + rest)[1..] == rest;
  }

  /** Part k sits in the join at the offset given by the parts before it, so
      the join is exactly the parts laid end to end, in order. */
  lemma {:induction false} ConcatPlaces(parts: seq<string>, k: nat)
    requires k < |parts|
    ensures TotalLength(parts[..k]) + |parts[k]| <= |Concat(parts)|
    ensures Concat(parts)[TotalLength(parts[..k])..TotalLength(parts[..k]) + |parts[k]|] == parts[k]
  {
    var rest := Concat(parts[1..]);
    assert Concat(parts) == parts[0] + rest;
    if k == 0 {
      assert parts[..0] == [];
    } else {
      ConcatPlaces(parts[1..], k - 1);
      assert parts[..k] == [parts[0]] + parts[1..][..k - 1];
      TotalLengthCons(parts[0], parts[1..][..k - 1]);
      assert parts[1..][k - 1] == parts[k];
    }
  }

  /** Taking the first k parts of a non-empty sequence and joining them is the
      first part followed by the join of the next k - 1. */
  lemma ConcatTake(s: seq<string>)
    ensures forall k :: 0 < k <= |s| ==> Concat(s[..k]) == s[0] + Concat(s[1..][..k - 1])
  {
    forall k | 0 < k <= |s|
      ensures Concat(s[..k]) == s[0] + Concat(s[1..][..k - 1])
    {
      assert s[..k][1..] == s[1..][..k - 1];
    }
  }

  /** `" ".join(parts)`: an empty list gives "", otherwise single spaces go
      between consecutive parts and nowhere else. */
  function JoinSpaced(parts: seq<string>): (r: string)
    ensures |r| == TotalLength(parts) + (if parts == [] then 0 else |parts| - 1)
  {
    if |parts| == 0 then ""
    else if |parts| == 1 then parts[0]
    else parts[0] + " " + JoinSpaced(parts[1..])
  }

  /** Adding one more word extends the join by one space and that word. */
  lemma {:induction false} JoinSpacedSnoc(parts: seq<string>, w: string)
    requires parts != []
    ensures JoinSpaced(parts + [w]) == JoinSpaced(parts) + " " + w
  {
    if |parts| == 1 {
      assert parts + [w] == [parts[0], w];
    } else {
      assert (parts + [w])[1..] == parts[1..] + [w];
      JoinSpacedSnoc(parts[1..], w);
    }
  }

  /** The index of the first space. */
  function FirstSpace(s: string): (i: nat)
    requires ' ' in s
    ensures i < |s| && s[i] == ' ' && ' ' !in s[..i]
  {
    if s[0] == ' ' then 0
    else
      var i := 1 + FirstSpace(s[1..]);
      assert s[..i] == [s[0]] + s[1..][..i - 1];
      i
  }

  /** `s.split(" ")`: the pieces between single spaces, empty ones included. */
  function SplitSpaces(s: string): (words: seq<string>)
    ensures words != []
    decreases |s|
  {
    if ' ' !in s then [s]
    else
      var i := FirstSpace(s);
      [s[..i]] + SplitSpaces(s[i + 1..])
  }

  /** Splitting the joined words on spaces gives the words back when none of
      them holds a space: joining neither merges, drops nor reorders words. */
  lemma {:induction false} JoinSpacedSplits(parts: seq<string>)
    requires parts != []
    requires forall i :: 0 <= i < |parts| ==> ' ' !in parts[i]
    ensures SplitSpaces(JoinSpaced(parts)) == parts
  {
    if |parts| > 1 {
      var p := parts[0];
      var tail := JoinSpaced(parts[1..]);
      var s := p + " " + tail;
      assert s == JoinSpaced(parts);
      assert s[|p|] == ' ' && s[..|p|] == p;
      assert ' ' in s;
      assert s[|p| + 1..] == tail;
      JoinSpacedSplits(parts[1..]);
    }
  }
}

=== FILE: trace.dfy ===
/** The observable behaviour of a run as a trace of events, the abstract model
    backend, and one generation turn shared by both programs. */
module Trace {
  import opened Base
  import opened Text
  import opened Render

  /** The fixed system instruction both programs open their sessions with. */
  const SystemPrompt: string := "You are a general purpose AI chat bot. Output in markdown."

  /** The arguments of a `GPT4All(...)` construction. */
  datatype ModelSpec = ModelSpec(file: string, dir: string, allowDownload: bool, device: string)

  /** Everything a generation can depend on: the session's system prompt, the
      prompts sent earlier in the same session, the new prompt and the budget. */
  datatype Request = Request(systemPrompt: string, history: seq<string>, prompt: string, maxTokens: int)

  /** The model backend: any deterministic map from a request to the finite
      token stream it emits. */
  type Backend = Request -> seq<string>

  datatype Event =
    | LoadModel(spec: ModelSpec)          // the model is constructed
    | OpenSession(systemPrompt: string)   // `chat_session` is entered
    | Input(line: string)                 // `input(">> ")` returned a line
    | Generate(prompt: string, maxTokens: int)
    | Repaint(text: string)               // the renderer is handed this text
    | SinkWrite(path: string, text: string)
    | Print(text: string)                 // a plain `print`
    | CloseSession                        // `chat_session` is left

  datatype Fault = TypeError | FileNotFoundError(message: string) | KeyError(key: string) | EOFError

  /** How a run ends: by returning, or by an exception that escapes `main`. */
  datatype Exit = Completed | Raised(fault: Fault)

  datatype Run = Run(trace: seq<Event>, exit: Exit)

  /** The values `pick` extracts from the events that carry one, in order. */
  function Keep<T>(t: seq<Event>, pick: Event -> Option<T>): (r: seq<T>)
    ensures |r| <= |t|
  {
    if t == [] then []
    else (match pick(t[0]) case Some(v) => [v] case None => []) + Keep(t[1..], pick)
  }

  lemma {:induction false} KeepAppend<T>(a: seq<Event>, b: seq<Event>, pick: Event -> Option<T>)
    ensures Keep(a + b, pick) == Keep(a, pick) + Keep(b, pick)
  {
    if a == [] {
      assert a + b == b;
    } else {
      assert (a + b)[1..] == a[1..] + b;
      KeepAppend(a[1..], b, pick);
    }
  }

  lemma {:induction false} KeepNone<T>(t: seq<Event>, pick: Event -> Option<T>)
    requires forall i :: 0 <= i < |t| ==> pick(t[i]).None?
    ensures Keep(t, pick) == []
  {
    if t != [] {
      KeepNone(t[1..], pick);
    }
  }

  /** Events the projection skips may surround a trace without changing it. */
  lemma KeepFramed<T>(first: Event, t: seq<Event>, last: Event, pick: Event -> Option<T>)
    requires pick(first).None? && pick(last).None?
    ensures Keep([first] + t + [last], pick) == Keep(t, pick)
  {
    KeepAppend([first], t, pick);
    KeepAppend([first] + t, [last], pick);
    KeepNone([first], pick);
    KeepNone([last], pick);
  }

  function PromptOf(e: Event): Option<string>
  {
    if e.Generate? then Some(e.prompt) else None
  }

  function BudgetOf(e: Event): Option<int>
  {
    if e.Generate? then Some(e.maxTokens) else None
  }

  function SinkTextOf(e: Event): Option<string>
  {
    if e.SinkWrite? then Some(e.text) else None
  }

  function InputOf(e: Event): Option<string>
  {
    if e.Input? then Some(e.line) else None
  }

  /** The prompts of all generations, in order. */
  function Prompts(t: seq<Event>): seq<string>
  {
    Keep(t, PromptOf)
  }

  /** The token budgets of all generations, in order. */
  function Budgets(t: seq<Event>): seq<int>
  {
    Keep(t, BudgetOf)
  }

  /** Everything appended to output files, in order. */
  function SinkTexts(t: seq<Event>): seq<string>
  {
    Keep(t, SinkTextOf)
  }

  /** The interactive lines read, in order. */
  function Inputs(t: seq<Event>): seq<string>
  {
    Keep(t, InputOf)
  }

  /** The events of one `print_stream` call: no generation, no input, and the
      file appends of the render. */
  function StreamEvents(stream: seq<string>, out: Option<string>): (t: seq<Event>)
    ensures |t| == |stream| + (if out.Some? then 1 else 0)
    ensures Prompts(t) == [] && Budgets(t) == [] && Inputs(t) == []
    ensures SinkTexts(t) == PrintStream(stream, out).appends
  {
    var r := PrintStream(stream, out);
    var repaints := seq(|r.frames|, k requires 0 <= k < |r.frames| => Repaint(r.frames[k]));
    var writes := match out case Some(path) => [SinkWrite(path, Concat(stream))] case None => [];
    KeepNone(repaints, PromptOf);
    KeepNone(repaints, BudgetOf);
    KeepNone(repaints, InputOf);
    KeepNone(repaints, SinkTextOf);
    KeepAppend(repaints, writes, PromptOf);
    KeepAppend(repaints, writes, BudgetOf);
    KeepAppend(repaints, writes, InputOf);
    KeepAppend(repaints, writes, SinkTextOf);
    repaints + writes
  }

  /** The order of a render's events: one repaint per token showing the tokens
      so far, and the single file write, when there is one, after all of them. */
  lemma StreamEventsOrder(stream: seq<string>, out: Option<string>)
    ensures var t := StreamEvents(stream, out);
            && (forall k :: 0 <= k < |stream| ==> t[k] == Repaint(Concat(stream[..k + 1])))
            && (out.Some? ==> t[|stream|] == SinkWrite(out.value, Concat(stream)))
  {
  }

  /** One generation inside an open session: the backend is asked for a stream
      and the stream is rendered, optionally into `out`. */
  function Turn(backend: Backend, session: string, history: seq<string>, prompt: string,
                maxTokens: int, out: Option<string>): (t: seq<Event>)
    ensures |t| > 0 && t[0] == Generate(prompt, maxTokens)
    ensures t[1..] == StreamEvents(backend(Request(session, history, prompt, maxTokens)), out)
    ensures Prompts(t) == [prompt] && Budgets(t) == [maxTokens] && Inputs(t) == []
    ensures SinkTexts(t) == PrintStream(backend(Request(session, history, prompt, maxTokens)), out).appends
  {
    var head := [Generate(prompt, maxTokens)];
    var rendered := StreamEvents(backend(Request(session, history, prompt, maxTokens)), out);
    KeepAppend(head, rendered, PromptOf);
    KeepAppend(head, rendered, BudgetOf);
    KeepAppend(head, rendered, InputOf);
    KeepAppend(head, rendered, SinkTextOf);
    head + rendered
  }
}
